=== FILE: README.md ===
# Lib4Maria catalog core in Dafny

Lib4Maria is a personal movie-and-series catalog that runs as one React
component (`Lib4Maria.jsx`). This project models the logic inside that
component as pure Dafny functions over immutable data:

- **Entries** are decoded JSON values (`JsonValue.Json`). The in-memory
  catalog is a `seq<Json>`. Entries stay JSON values, not a typed record,
  because the source never validates loaded data and its import keeps every
  extra field (`{...item, id}`).
- **Validator** (`Validator`): `isValidMediaItem`. It is proved equal to an
  independent field-type schema.
- **Catalog handlers** (`Catalog`): add the drafted entry, delete by id, toggle
  the favourite flag by id, toggle a genre on the add-form draft, and clear the
  random pick when its entry is deleted.
- **View** (`View`): the filtered list (type filter AND search AND
  favourites-only), the button counters, and the random pick.
- **Import/export** (`Transfer`): the `{mediaItems}` backup document and the
  import pipeline: shape check, validation, ids `timestamp + index`, then
  append or replace.
- **Store** (`Store`): loading and saving the catalog, the type filter and the
  favourites-only flag under their keys; the write-back on mount; clearing.

Environment inputs are parameters. The clock reading is `now`/`timestamp`.
`Math.random()` is a real `u` in [0, 1). The confirmation answers are
booleans. `JSON.parse` is `parse: string -> Option<Json>`, where `None`
means it throws, and `JSON.stringify` is `stringify: Json -> string`. Where
the source throws inside a handler's `try`, the model returns a `Failure`
and the catalog stays as it was.

Some behaviours of the component are looser than a reader might expect. The model keeps them as the code has them:
- The validator does not check that theme elements are strings.
- Clearing wipes the whole store, including keys other applications own.
- A `null` import document fails with a TypeError (`NullDocument`) rather than the
  "Invalid file format" error.
- The save effects have no `try`, so write failures are not caught there.

## Model

| member | source | states |
|---|---|---|
| Validator.ValidIffConforms | Lib4Maria/src/components/Lib4Maria.jsx:84-95 | the validator accepts a value iff it is an object with a string title, type "movie" or "series", an array of themes, string year, rating and description, and a boolean isFavorite |
| Validator.ValidIgnoresOtherKeys | Lib4Maria/src/components/Lib4Maria.jsx:84-95 | adding or changing a key outside those seven (in particular `id`) never changes validity |
| Validator.ValidIgnoresThemeElements | Lib4Maria/src/components/Lib4Maria.jsx:89 | any array of themes is accepted, whatever its elements |
| Validator.LooseEntryIsValid | Lib4Maria/src/components/Lib4Maria.jsx:84-95 | an empty title, non-string themes and rating "99" pass: no emptiness or range checks |
| Validator.BadKindIsInvalid | Lib4Maria/src/components/Lib4Maria.jsx:88 | an object whose type is "bad-kind" is rejected |
| Validator.ValidIsObject | Lib4Maria/src/components/Lib4Maria.jsx:84-95 | only objects pass: null, arrays, strings, numbers and booleans are rejected |
| Catalog.Add | Lib4Maria/src/components/Lib4Maria.jsx:215-216 | the catalog grows by exactly one entry at the end and the old entries are an unchanged prefix. The new entry has exactly the eight keys: the draft's title, type, genres (as strings), year, rating and description, id `now`, and isFavorite false |
| Catalog.AddedItemIsValid | Lib4Maria/src/components/Lib4Maria.jsx:215 | an added entry whose kind is movie or series would itself pass the import validator |
| Catalog.AddKeepsIdsUniqueIff | Lib4Maria/src/components/Lib4Maria.jsx:215-216 | ids stay unique after add iff they were unique and `now` is not already an id |
| Catalog.Delete | Lib4Maria/src/components/Lib4Maria.jsx:248 | fails iff an entry is null. Otherwise the result is an order-preserving subsequence holding exactly the entries whose id differs from the given one, each as many times as in the catalog |
| Catalog.DeleteAbsentIsNoop | Lib4Maria/src/components/Lib4Maria.jsx:248 | deleting an id no entry carries leaves the catalog unchanged |
| Catalog.DeleteKeepsIdsUnique | Lib4Maria/src/components/Lib4Maria.jsx:248 | deletion never creates a duplicate id |
| Catalog.DeleteRemovesId | Lib4Maria/src/components/Lib4Maria.jsx:248 | after deletion no entry carries the deleted id |
| Catalog.SelectionAfterDelete | Lib4Maria/src/components/Lib4Maria.jsx:249-251 | the random pick is cleared iff it carries the deleted id, otherwise kept |
| Catalog.SelectionStaysInCatalog | Lib4Maria/src/components/Lib4Maria.jsx:248-251 | a pick taken from the catalog is, after a delete, either cleared or still an entry of the new catalog |
| Catalog.ToggleFavorite | Lib4Maria/src/components/Lib4Maria.jsx:260-262 | fails iff an entry is null; otherwise length and ids are kept, non-matching entries are unchanged, and matching entries differ only in isFavorite, which becomes the negated truthiness of the old value |
| Catalog.ToggleFavoriteTwice | Lib4Maria/src/components/Lib4Maria.jsx:260-262 | toggling the same id twice restores the catalog when the toggled flags are booleans |
| Catalog.ToggleFavoriteTwiceNormalises | Lib4Maria/src/components/Lib4Maria.jsx:261 | a non-boolean flag ("yes") is not restored: two toggles leave `true` |
| Catalog.ToggleFavoriteKeepsIdsUnique | Lib4Maria/src/components/Lib4Maria.jsx:260-262 | toggling keeps ids unique |
| Catalog.ToggleTheme | Lib4Maria/src/components/Lib4Maria.jsx:232-244 | the genre's membership flips, every other genre occurs exactly as many times as before, and every other draft field is unchanged; removal keeps order, insertion appends |
| Catalog.ToggleThemeTwice | Lib4Maria/src/components/Lib4Maria.jsx:232-244 | toggling an absent genre twice restores the draft |
| Catalog.ToggleThemeKeepsNoDuplicates | Lib4Maria/src/components/Lib4Maria.jsx:232-244 | a genre list without repeats keeps none after a toggle |
| Catalog.ToggleThemes | Lib4Maria/src/components/Lib4Maria.jsx:232-244 | a run of genre clicks changes only the draft's genre list |
| Catalog.ToggleThemeMembership | Lib4Maria/src/components/Lib4Maria.jsx:232-244 | one click flips the membership of the clicked genre and of no other |
| Catalog.ToggleThemesParity | Lib4Maria/src/components/Lib4Maria.jsx:232-244 | after a run of clicks a genre is chosen iff it was chosen before and was clicked an even number of times, or was not chosen and was clicked an odd number of times |
| Catalog.ToggleThemesKeepsGenres | Lib4Maria/src/components/Lib4Maria.jsx:232-244 | clicks on genres of a vocabulary keep a repeat-free genre list drawn from that vocabulary repeat-free and within it |
| Catalog.BlankFormGenres | Lib4Maria/src/components/Lib4Maria.jsx:53-60 | from the blank form, clicks on genres of a vocabulary never produce a repeated genre or one outside that vocabulary |
| Catalog.FormGenresFromEmpty | Lib4Maria/src/components/Lib4Maria.jsx:232-244 | from a form with no genre chosen, clicking genres of the offered twelve (lines 76-80) never produces a repeated genre or one outside them |
| View.ThemesHit | Lib4Maria/src/components/Lib4Maria.jsx:289 | the `some` walk throws iff it reaches a non-string theme after only string themes that miss the term. It is true iff it reaches a string theme containing the term after only misses. It is false iff every theme is a string that misses |
| View.SearchHit | Lib4Maria/src/components/Lib4Maria.jsx:288-289 | throws iff the title is not a string, or the title misses the term and the themes are not an array or their walk throws. It is true iff the title is a string and either the lowered title contains the term or the themes are an array whose walk hits. It is false iff the title is a string that misses and the themes are an array whose walk is false |
| View.FilteredMedia | Lib4Maria/src/components/Lib4Maria.jsx:286-292 | the view is a subsequence of the catalog holding exactly the entries that pass the type filter, the search and the favourites test together, each as many times as in the catalog |
| View.UnfilteredViewIsCatalog | Lib4Maria/src/components/Lib4Maria.jsx:286-292 | with 'all', favourites off and an empty search the view is the whole catalog |
| View.KindFilterNarrowsAllView | Lib4Maria/src/components/Lib4Maria.jsx:287 | the 'movie' or 'series' view equals the 'all' view filtered by that type |
| View.FavoritesCount | Lib4Maria/src/components/Lib4Maria.jsx:295 | the favourites counter never exceeds the catalog size |
| View.FavoritesCountAfterAdd | Lib4Maria/src/components/Lib4Maria.jsx:215-216 | adding an entry leaves the favourites counter unchanged |
| View.FavoritesCountAfterToggle | Lib4Maria/src/components/Lib4Maria.jsx:260-262 | with unique ids, toggling any entry moves the favourites counter by exactly one, whatever its flag holds: down if the flag was truthy, up if not |
| View.CountKindIsFilterLength | Lib4Maria/src/components/Lib4Maria.jsx:297-298 | counting one kind by recursion equals the length of the catalog filtered by that type |
| View.SingleKindCounts | Lib4Maria/src/components/Lib4Maria.jsx:296-299 | in a view of a single kind, that kind's counter is the view's length and any other kind's is zero |
| View.CurrentFilterCounts | Lib4Maria/src/components/Lib4Maria.jsx:296-299 | movies plus series never exceed the size of the view |
| View.MovieViewCounts | Lib4Maria/src/components/Lib4Maria.jsx:296-299 | in the 'movie' view the movie counter is the view's length and the series counter is zero |
| View.PickIndex | Lib4Maria/src/components/Lib4Maria.jsx:272 | for every draw u in [0, 1) the position is below n and is the floor of u * n: i <= u * n < i + 1 |
| View.PickIndexReachesEvery | Lib4Maria/src/components/Lib4Maria.jsx:272 | every position below n is produced by some draw |
| View.RandomPick | Lib4Maria/src/components/Lib4Maria.jsx:269-274 | nothing is picked iff the view is empty; otherwise the pick is a member of the view |
| View.RandomPickReachesEvery | Lib4Maria/src/components/Lib4Maria.jsx:272-273 | every entry of the view is picked by some draw: the draw i/n picks the entry at position i |
| View.RandomPickInterval | Lib4Maria/src/components/Lib4Maria.jsx:272-273 | every draw in [i/n, (i+1)/n), an interval of width 1/n, picks the entry at position i |
| View.SearchIsCaseInsensitive | Lib4Maria/src/components/Lib4Maria.jsx:288-289 | "dune" finds the title "Dune" and "SCI" finds the theme "Sci-Fi" |
| Transfer.Export | Lib4Maria/src/components/Lib4Maria.jsx:108 | the backup document is an object whose only key is `mediaItems`, and that holds the catalog as an array |
| Transfer.Survivors | Lib4Maria/src/components/Lib4Maria.jsx:147 | the survivors are exactly the candidates the validator accepts: every survivor is an object that passes, every passing candidate survives with its multiplicity, and document order is kept |
| Transfer.Renumber | Lib4Maria/src/components/Lib4Maria.jsx:155-158 | the i-th entry gets id `timestamp + i` and keeps every other field |
| Transfer.Import | Lib4Maria/src/components/Lib4Maria.jsx:138-175 | fails iff the document is null, has neither accepted shape, or has no valid candidate. It succeeds iff the document has an accepted shape with at least one valid candidate. On success, append yields the old catalog as a prefix followed by the valid candidates renumbered from the timestamp, and replace yields just those |
| Transfer.ImportText | Lib4Maria/src/components/Lib4Maria.jsx:134 | undecodable text fails as Unparsable; decodable text is imported |
| Transfer.BatchIdsUnique | Lib4Maria/src/components/Lib4Maria.jsx:154-158 | the ids of one imported batch are pairwise distinct |
| Transfer.AppendedBatchKeepsIdsUnique | Lib4Maria/src/components/Lib4Maria.jsx:154-169 | appending an imported batch keeps ids unique when no existing id lies in the batch's id range |
| Transfer.AppendedImportCanCollide | Lib4Maria/src/components/Lib4Maria.jsx:154-169 | an existing id equal to the timestamp produces a duplicate id after appending |
| Transfer.ExportImportRoundTrip | Lib4Maria/src/components/Lib4Maria.jsx:138-173 | importing the export of a non-empty catalog of valid entries with replace gives back the catalog with ids `timestamp + i` and all other fields unchanged |
| Transfer.EmptyExportIsRejected | Lib4Maria/src/components/Lib4Maria.jsx:149-151 | the export of an empty catalog is rejected by import with NoValidItems |
| Transfer.OnlyInvalidEntryIsRejected | Lib4Maria/src/components/Lib4Maria.jsx:147-151 | a document whose only entry has type "bad-kind" fails with NoValidItems |
| Transfer.BareArrayImport | Lib4Maria/src/components/Lib4Maria.jsx:138-169 | a bare array with one valid entry imports as one appended entry whose id is the timestamp |
| Store.SeedIsWellFormed | Lib4Maria/src/components/Lib4Maria.jsx:9-30 | the two seed entries pass the validator and carry the distinct ids 1 and 2 |
| Store.LoadCatalog | Lib4Maria/src/components/Lib4Maria.jsx:34-42 | loading never fails: an absent, empty or undecodable value yields the seed, anything else its decoded value unchecked |
| Store.SaveCatalog | Lib4Maria/src/components/Lib4Maria.jsx:63-65 | only the catalog key changes |
| Store.CatalogRoundTrip | Lib4Maria/src/components/Lib4Maria.jsx:36-64 | a saved catalog loads back as itself whenever the codec round-trips it |
| Store.UndecodableLoadsSeed | Lib4Maria/src/components/Lib4Maria.jsx:34-42 | the stored text "not json" loads as the seed |
| Store.LoadIsUnvalidated | Lib4Maria/src/components/Lib4Maria.jsx:37 | a stored number loads as that number: no validation, no `{mediaItems}` unwrapping |
| Store.LoadFilter | Lib4Maria/src/components/Lib4Maria.jsx:47 | the loaded filter is never empty: the stored text when present and non-empty, else 'all' |
| Store.SaveFilter | Lib4Maria/src/components/Lib4Maria.jsx:67-69 | only the filter key changes |
| Store.FilterRoundTrip | Lib4Maria/src/components/Lib4Maria.jsx:47-69 | a saved filter loads back, the empty text as 'all' |
| Store.LoadFavorites | Lib4Maria/src/components/Lib4Maria.jsx:50-52 | the flag is on iff the stored text is exactly "true" |
| Store.SaveFavorites | Lib4Maria/src/components/Lib4Maria.jsx:71-73 | only the favourites key changes and it holds "true" or "false" |
| Store.FavoritesRoundTrip | Lib4Maria/src/components/Lib4Maria.jsx:50-73 | the favourites flag always loads back as saved |
| Store.SavesAreIndependent | Lib4Maria/src/components/Lib4Maria.jsx:63-73 | saving any one of the three keys leaves the other two loads unchanged |
| Store.Mount | Lib4Maria/src/components/Lib4Maria.jsx:63-73 | the write-back runs only after the first render succeeds. When the loaded catalog is not an array, has an entry without a string title, or shows an entry whose themes are not an array, the store is left exactly as it was. Otherwise mount adds the three keys and keeps every other key. It writes the encoded loaded catalog, the loaded filter, and "true" or "false" for the loaded favourites flag |
| Store.UnrenderableCatalogIsNotWrittenBack | Lib4Maria/src/components/Lib4Maria.jsx:63-73 | a stored catalog that decodes to the number 7 crashes the render, so mounting writes no key at all |
| Store.FirstRunIsWrittenBack | Lib4Maria/src/components/Lib4Maria.jsx:34-73 | on an empty store the seed renders, and mount writes the encoded seed, 'all' and "false" under exactly the three keys |
| Store.MountIsStable | Lib4Maria/src/components/Lib4Maria.jsx:34-73 | after mount, loading again gives the same catalog, filter and flag |
| Store.ClearData | Lib4Maria/src/components/Lib4Maria.jsx:197-209 | a declined clear and a failing clear change nothing; a clear empties the catalog, resets the preferences, and leaves only this component's keys: the catalog key always, the filter and flag keys only when their values changed |
| Store.ReloadAfterClear | Lib4Maria/src/components/Lib4Maria.jsx:197-209 | after a clear the next load gives an empty catalog, 'all' and favourites off |

## Left out

- Rendering, styling (`colors`), the add form's visibility and reset after submit, scroll-into-view and its `setTimeout`: these are presentation.
- The add form's gating (required inputs, submit disabled without genres) is browser form behaviour. It is not part of `handleAddMedia`, so `Catalog.Add` accepts any draft.
- The file picker, `FileReader`, the "no file selected" alert, the `isImporting` flag and the download link with its file name are browser I/O.
- The text level of `JSON.parse`/`JSON.stringify` and pretty printing are left out. Decoded values are modelled directly, and the codec is a pair of parameters.
- JSON numbers are integers, because ids and the seed use only integers. Fractions and NaN are not represented.
- View.FilteredMedia: requires every entry to be searchable. The source throws while rendering a catalog whose search test cannot be evaluated (a non-string title, or a non-string theme reached first), and the model does not represent the crashed render.
- View.PickIndex: `Math.random() * n` is computed in exact real arithmetic; floating-point rounding is not modelled.
- `toLowerCase` lowercases ASCII letters only; Unicode case mapping is not modelled.
- Catalog.Delete and Catalog.ToggleFavorite compare ids structurally. The source compares array and object ids by reference. Both take a defined id. An `undefined` id, from a loaded entry without one, is not modelled; the spread of non-object entries that would then match is not modelled either.
- Store.Mount: a first render is taken to fail only when the filtered list cannot be computed (lines 286-292) or a shown entry's themes have no `map` (line 576). Other render failures are not modelled, such as an object title or type that React refuses as a child. For those the model writes back where the source writes nothing.
- The handlers take the catalog as a sequence. A loaded non-array value makes the source's `.filter`/`.map` throw, and the model does not represent that state.
- `alert`, `confirm` and `console.error` enter only through their outcome: a boolean answer or a `Failure`.
- Failures of `setItem` (such as a full quota) are not modelled, and the source does not catch them.
- The "All" button's clearing of the random pick (lines 322-325) is UI wiring.
- React effect timing is reduced to one write-back per changed value, in declaration order.

=== FILE: catalog.dfy ===
/**
  The in-memory catalog and the handlers that change it: adding the drafted
  entry, deleting and favouriting by id, and toggling a genre on the draft.
  The catalog is the sequence of entries held in the component's state; its
  entries are decoded JSON values because loaded data is never validated.
 */
module Catalog {
  import opened Results
  import opened JsonValue
  import opened Seqs
  import opened Validator

  /** The add-form contents (`newMedia`): every field the form edits, no id. */
  datatype Draft = Draft(
    title: string,
    kind: string,
    themes: seq<string>,
    releaseYear: string,
    rating: string,
    description: string)

  /** The genre vocabulary offered by the add form. */
  const AllThemes: seq<string> :=
    ["Action", "Comedy", "Drama", "Horror", "Sci-Fi", "Romance", "Thriller",
     "Documentary", "Crime", "Mystery", "History", "Biography"]

  /** The form's initial and post-submit contents. */
  const BlankDraft: Draft := Draft("", "movie", [], "", "", "")

  /** Why a handler abandons its update: reading `item.id` of a `null` entry throws. */
  datatype HandlerError = NullEntry

  /** The entry's `id` property. */
  function IdOf(item: Json): Option<Json>
  {
    Get(item, "id")
  }

  /** Every entry has an id and no two entries share one. */
  predicate IdsUnique(items: seq<Json>)
  {
    && (forall i :: 0 <= i < |items| ==> IdOf(items[i]).Some?)
    && (forall i, j :: 0 <= i < j < |items| ==> IdOf(items[i]) != IdOf(items[j]))
  }

  /** Some entry is `null`, so `item.id` throws while the handler walks the catalog. */
  predicate HasNullEntry(items: seq<Json>)
  {
    exists i :: 0 <= i < |items| && items[i] == JNull
  }

  /** The genre names as JSON strings, in order. */
  function Strings(ts: seq<string>): (r: seq<Json>)
    ensures |r| == |ts|
    ensures forall i :: 0 <= i < |ts| ==> r[i] == JStr(ts[i])
  {
    seq(|ts|, i requires 0 <= i < |ts| => JStr(ts[i]))
  }

  /** The entry `{ ...newMedia, id, isFavorite: false }` built from the draft:
      the six draft fields, the id and an unset favourite flag, and nothing else. */
  function NewItem(d: Draft, id: int): (r: Json)
    ensures r.JObj?
    ensures r.fields.Keys ==
      {"title", "type", "themes", "releaseYear", "rating", "description", "id", "isFavorite"}
    ensures Get(r, "title") == Some(JStr(d.title)) && Get(r, "type") == Some(JStr(d.kind))
    ensures Get(r, "themes") == Some(JArr(Strings(d.themes)))
    ensures Get(r, "releaseYear") == Some(JStr(d.releaseYear)) && Get(r, "rating") == Some(JStr(d.rating))
    ensures Get(r, "description") == Some(JStr(d.description))
    ensures IdOf(r) == Some(JNum(id)) && Get(r, "isFavorite") == Some(JBool(false))
  {
    JObj(map[
      "title" := JStr(d.title),
      "type" := JStr(d.kind),
      "themes" := JArr(Strings(d.themes)),
      "releaseYear" := JStr(d.releaseYear),
      "rating" := JStr(d.rating),
      "description" := JStr(d.description),
      "id" := JNum(id),
      "isFavorite" := JBool(false)])
  }

  /** `handleAddMedia`: append the drafted entry with id `now` (the clock reading)
      and `isFavorite` false. No uniqueness check and no validation happen here. */
  function Add(items: seq<Json>, d: Draft, now: int): (r: seq<Json>)
    ensures |r| == |items| + 1
    ensures r[..|items|] == items
    ensures r[|items|] == NewItem(d, now)
  {
    items + [NewItem(d, now)]
  }

  /** A draft whose kind came from the form's select always yields an entry the
      import validator would accept, whatever its themes, year and rating. */
  lemma AddedItemIsValid(d: Draft, id: int)
    requires d.kind == "movie" || d.kind == "series"
    ensures IsValidMediaItem(NewItem(d, id))
  {
  }

  /** Add keeps ids unique exactly when the catalog's ids were unique and `now`
      is not already an id: the clock is the only guard against collisions. */
  lemma AddKeepsIdsUniqueIff(items: seq<Json>, d: Draft, now: int)
    ensures IdsUnique(Add(items, d, now)) <==>
            IdsUnique(items) && forall i :: 0 <= i < |items| ==> IdOf(items[i]) != Some(JNum(now))
  {
  }

  /** The test `item.id !== id` that deletion keeps. */
  predicate KeepsOnDelete(item: Json, id: Json)
  {
    IdOf(item) != Some(id)
  }

  /** `handleDelete`: keep the entries whose id differs from `id`. */
  function Delete(items: seq<Json>, id: Json): (r: Result<seq<Json>, HandlerError>)
    ensures r.Failure? <==> HasNullEntry(items)
    ensures r.Success? ==> IsSubsequence(r.value, items)
    ensures r.Success? ==> forall x :: x in r.value ==> x in items && IdOf(x) != Some(id)
    ensures r.Success? ==> forall x :: x in items && IdOf(x) != Some(id) ==> x in r.value
    ensures r.Success? ==> multiset(r.value) <= multiset(items)
    ensures r.Success? ==> forall x :: x in multiset(items) && IdOf(x) != Some(id) ==>
      multiset(r.value)[x] == multiset(items)[x]
  {
    if HasNullEntry(items) then Failure(NullEntry)
    else Success(Filter(items, x => KeepsOnDelete(x, id)))
  }

  /** Deleting an id no entry carries changes nothing. */
  lemma DeleteAbsentIsNoop(items: seq<Json>, id: Json)
    requires !HasNullEntry(items)
    requires forall i :: 0 <= i < |items| ==> IdOf(items[i]) != Some(id)
    ensures Delete(items, id) == Success(items)
  {
    forall x | x in items ensures KeepsOnDelete(x, id) {
      var i :| 0 <= i < |items| && items[i] == x;
    }
    FilterKeepsAll(items, x => KeepsOnDelete(x, id));
  }

  /** Prepending an entry with an id that none of the others carries keeps the
      ids of a catalog unique. */
  lemma IdsUniqueCons(x: Json, rest: seq<Json>)
    requires IdsUnique(rest)
    requires IdOf(x).Some?
    requires forall y :: y in rest ==> IdOf(y) != IdOf(x)
    ensures IdsUnique([x] + rest)
  {
  }

  /** Filtering a catalog with unique ids leaves them unique. */
  lemma {:induction false} FilterKeepsIdsUnique(items: seq<Json>, p: Json -> bool)
    requires IdsUnique(items)
    ensures IdsUnique(Filter(items, p))
  {
    if |items| > 0 {
      var rest := items[1..];
      assert IdsUnique(rest) by {
        forall i, j | 0 <= i < j < |rest| ensures IdOf(rest[i]) != IdOf(rest[j]) {
          assert rest[i] == items[i + 1] && rest[j] == items[j + 1];
        }
        forall i | 0 <= i < |rest| ensures IdOf(rest[i]).Some? {
          assert rest[i] == items[i + 1];
        }
      }
      FilterKeepsIdsUnique(rest, p);
      if p(items[0]) {
        forall y | y in Filter(rest, p) ensures IdOf(y) != IdOf(items[0]) {
          var j :| 0 <= j < |rest| && rest[j] == y;
          assert items[j + 1] == y;
        }
        assert IdOf(items[0]).Some?;
        IdsUniqueCons(items[0], Filter(rest, p));
      }
    }
  }

  /** Deletion never introduces a duplicate id. */
  lemma DeleteKeepsIdsUnique(items: seq<Json>, id: Json)
    requires IdsUnique(items)
    requires !HasNullEntry(items)
    ensures IdsUnique(Delete(items, id).value)
  {
    FilterKeepsIdsUnique(items, x => KeepsOnDelete(x, id));
  }

  /** After deletion no entry carries the deleted id. */
  lemma DeleteRemovesId(items: seq<Json>, id: Json)
    requires !HasNullEntry(items)
    ensures forall i :: 0 <= i < |Delete(items, id).value| ==> IdOf(Delete(items, id).value[i]) != Some(id)
  {
  }

  /** The spread `{ ...item, isFavorite: !item.isFavorite }`. */
  function Flip(item: Json): (r: Json)
    requires item.JObj?
    ensures r.JObj? && IdOf(r) == IdOf(item)
    ensures Get(r, "isFavorite") == Some(JBool(!Truthy(Get(item, "isFavorite"))))
    ensures forall k :: k != "isFavorite" ==> Get(r, k) == Get(item, k)
  {
    WithField(item, "isFavorite", JBool(!Truthy(Get(item, "isFavorite"))))
  }

  /** One entry after `toggleFavorite(id)`. */
  function ToggleOne(item: Json, id: Json): Json
  {
    if IdOf(item) == Some(id) then Flip(item) else item
  }

  /** `toggleFavorite`: flip `isFavorite` on every entry whose id is `id`. */
  function ToggleFavorite(items: seq<Json>, id: Json): (r: Result<seq<Json>, HandlerError>)
    ensures r.Failure? <==> HasNullEntry(items)
    ensures r.Success? ==> |r.value| == |items|
    ensures r.Success? ==> forall i :: 0 <= i < |items| ==> IdOf(r.value[i]) == IdOf(items[i])
    ensures r.Success? ==> forall i :: 0 <= i < |items| && IdOf(items[i]) != Some(id) ==> r.value[i] == items[i]
    ensures r.Success? ==> forall i, k :: 0 <= i < |items| && k != "isFavorite" ==> Get(r.value[i], k) == Get(items[i], k)
    ensures r.Success? ==> forall i :: 0 <= i < |items| && IdOf(items[i]) == Some(id) ==>
      Get(r.value[i], "isFavorite") == Some(JBool(!Truthy(Get(items[i], "isFavorite"))))
  {
    if HasNullEntry(items) then Failure(NullEntry)
    else Success(seq(|items|, i requires 0 <= i < |items| => ToggleOne(items[i], id)))
  }

  /** Every entry carrying `id` holds a boolean `isFavorite`. */
  predicate FlagsAreBoolean(items: seq<Json>, id: Json)
  {
    forall i :: 0 <= i < |items| && IdOf(items[i]) == Some(id) ==> IsBool(Get(items[i], "isFavorite"))
  }

  /** Toggling twice restores the catalog when the toggled flags are booleans. */
  lemma ToggleFavoriteTwice(items: seq<Json>, id: Json)
    requires !HasNullEntry(items)
    requires FlagsAreBoolean(items, id)
    ensures ToggleFavorite(ToggleFavorite(items, id).value, id) == Success(items)
  {
    var once := ToggleFavorite(items, id).value;
    assert !HasNullEntry(once) by {
      forall i | 0 <= i < |once| ensures once[i] != JNull {
        if IdOf(items[i]) == Some(id) { assert once[i].JObj?; }
      }
    }
    var twice := ToggleFavorite(once, id).value;
    forall i | 0 <= i < |items| ensures twice[i] == items[i] {
      if IdOf(items[i]) == Some(id) {
        var m := items[i].fields;
        assert IsBool(Get(items[i], "isFavorite"));
        assert twice[i] == Flip(Flip(items[i]));
        assert twice[i].fields.Keys == m.Keys;
        forall k | k in m ensures twice[i].fields[k] == m[k] {
          assert Get(twice[i], k) == Get(items[i], k);
        }
        assert twice[i].fields == m;
      } else {
        assert once[i] == items[i];
      }
    }
    assert twice == items;
  }

  /** A non-boolean flag is not restored: `"yes"` becomes `false`, then `true`. */
  lemma ToggleFavoriteTwiceNormalises()
    ensures var item := JObj(map["id" := JNum(1), "isFavorite" := JStr("yes")]);
            ToggleFavorite(ToggleFavorite([item], JNum(1)).value, JNum(1)) ==
            Success([JObj(map["id" := JNum(1), "isFavorite" := JBool(true)])])
  {
    var item := JObj(map["id" := JNum(1), "isFavorite" := JStr("yes")]);
    assert !HasNullEntry([item]);
    var once := ToggleFavorite([item], JNum(1)).value;
    var m := map["id" := JNum(1), "isFavorite" := JStr("yes")];
    assert Truthy(Get(item, "isFavorite"));
    assert m["isFavorite" := JBool(false)] == map["id" := JNum(1), "isFavorite" := JBool(false)];
    assert once == [JObj(map["id" := JNum(1), "isFavorite" := JBool(false)])];
    assert !HasNullEntry(once);
    var twice := ToggleFavorite(once, JNum(1)).value;
    assert map["id" := JNum(1), "isFavorite" := JBool(false)]["isFavorite" := JBool(true)]
        == map["id" := JNum(1), "isFavorite" := JBool(true)];
    assert twice[0] == JObj(map["id" := JNum(1), "isFavorite" := JBool(true)]);
    assert twice == [JObj(map["id" := JNum(1), "isFavorite" := JBool(true)])];
  }

  /** Toggling never changes ids, so uniqueness is kept. */
  lemma ToggleFavoriteKeepsIdsUnique(items: seq<Json>, id: Json)
    requires IdsUnique(items)
    requires !HasNullEntry(items)
    ensures IdsUnique(ToggleFavorite(items, id).value)
  {
  }

  /** The pick shown in the alert after deleting `id`: cleared when it carries `id`.
      It applies only after `Delete` succeeds; when the filter throws, the pick is
      not touched (and a catalog with a `null` entry never renders anyway). */
  function SelectionAfterDelete(selection: Option<Json>, id: Json): (r: Option<Json>)
    ensures r.None? <==> selection.None? || IdOf(selection.value) == Some(id)
    ensures r.Some? ==> r == selection
  {
    if selection.Some? && IdOf(selection.value) == Some(id) then None else selection
  }

  /** A pick taken from the catalog either disappears with its entry or is
      still an entry of the catalog after the deletion. */
  lemma SelectionStaysInCatalog(items: seq<Json>, selection: Option<Json>, id: Json)
    requires !HasNullEntry(items)
    requires selection.Some? ==> selection.value in items
    ensures var after := SelectionAfterDelete(selection, id);
            after.Some? ==> after.value in Delete(items, id).value
  {
  }

  /** `handleThemeToggle`: drop every copy of `theme` from the draft's genres if
      present, otherwise append it. Nothing else in the draft changes. */
  function ToggleTheme(d: Draft, theme: string): (r: Draft)
    ensures r.(themes := d.themes) == d
    ensures theme in r.themes <==> theme !in d.themes
    ensures forall t :: t != theme ==> (t in r.themes <==> t in d.themes)
    ensures forall t :: t != theme ==> multiset(r.themes)[t] == multiset(d.themes)[t]
    ensures theme in d.themes ==> IsSubsequence(r.themes, d.themes)
    ensures theme !in d.themes ==> |r.themes| == |d.themes| + 1 && r.themes[..|d.themes|] == d.themes
  {
    if theme in d.themes then d.(themes := Filter(d.themes, t => t != theme))
    else d.(themes := d.themes + [theme])
  }

  /** Toggling an absent genre twice gives back the draft. */
  lemma ToggleThemeTwice(d: Draft, theme: string)
    requires theme !in d.themes
    ensures ToggleTheme(ToggleTheme(d, theme), theme) == d
  {
    FilterConcat(d.themes, [theme], t => t != theme);
    FilterKeepsAll(d.themes, t => t != theme);
  }

  /** A sequence without repeated elements. */
  predicate NoDuplicates(s: seq<string>)
  {
    forall i, j :: 0 <= i < j < |s| ==> s[i] != s[j]
  }

  /** The head of a repeat-free sequence does not occur in its tail. */
  lemma HeadNotInTail(s: seq<string>)
    requires |s| > 0 && NoDuplicates(s)
    ensures s[0] !in s[1..]
  {
    forall k | 0 <= k < |s[1..]| ensures s[1..][k] != s[0] {
      assert s[1..][k] == s[k + 1];
    }
  }

  /** Prefixing an absent element keeps a sequence free of repeats. */
  lemma ConsKeepsNoDuplicates(x: string, t: seq<string>)
    requires NoDuplicates(t) && x !in t
    ensures NoDuplicates([x] + t)
  {
    var r := [x] + t;
    forall i, j | 0 <= i < j < |r| ensures r[i] != r[j] {
      assert r[j] == t[j - 1];
      if i > 0 { assert r[i] == t[i - 1]; }
    }
  }

  /** Filtering keeps a sequence free of repeats. */
  lemma {:induction false} FilterKeepsNoDuplicates(s: seq<string>, p: string -> bool)
    requires NoDuplicates(s)
    ensures NoDuplicates(Filter(s, p))
  {
    if |s| > 0 {
      assert NoDuplicates(s[1..]) by {
        forall i, j | 0 <= i < j < |s[1..]| ensures s[1..][i] != s[1..][j] {
          assert s[1..][i] == s[i + 1] && s[1..][j] == s[j + 1];
        }
      }
      FilterKeepsNoDuplicates(s[1..], p);
      var rest := Filter(s[1..], p);
      if p(s[0]) {
        HeadNotInTail(s);
        assert s[0] !in rest;
        ConsKeepsNoDuplicates(s[0], rest);
        assert Filter(s, p) == [s[0]] + rest;
      } else {
        assert Filter(s, p) == rest;
      }
    }
  }

  /** The genre list of a draft edited only through the toggle never repeats a genre. */
  lemma ToggleThemeKeepsNoDuplicates(d: Draft, theme: string)
    requires NoDuplicates(d.themes)
    ensures NoDuplicates(ToggleTheme(d, theme).themes)
  {
    if theme in d.themes {
      FilterKeepsNoDuplicates(d.themes, t => t != theme);
    }
  }

  /** The draft after the user clicks the genre buttons `clicks` in order; only
      the genre list changes. */
  function ToggleThemes(d: Draft, clicks: seq<string>): (r: Draft)
    ensures r.(themes := d.themes) == d
    decreases |clicks|
  {
    if |clicks| == 0 then d else ToggleThemes(ToggleTheme(d, clicks[0]), clicks[1..])
  }

  /** Clicking genres of a vocabulary `offered` keeps a draft's genre list free
      of repeats and inside that vocabulary. */
  lemma {:induction false} ToggleThemesKeepsGenres(d: Draft, clicks: seq<string>, offered: seq<string>)
    requires NoDuplicates(d.themes)
    requires forall t :: t in d.themes ==> t in offered
    requires forall i :: 0 <= i < |clicks| ==> clicks[i] in offered
    ensures NoDuplicates(ToggleThemes(d, clicks).themes)
    ensures forall t :: t in ToggleThemes(d, clicks).themes ==> t in offered
    decreases |clicks|
  {
    if |clicks| > 0 {
      var next := ToggleTheme(d, clicks[0]);
      ToggleThemeKeepsNoDuplicates(d, clicks[0]);
      assert forall t :: t in next.themes ==> t in offered;
      ToggleThemesKeepsGenres(next, clicks[1..], offered);
    }
  }

  /** From the blank form, clicking only genres of a vocabulary `offered` (the
      form offers `AllThemes`) never produces a repeated genre or one outside
      that vocabulary. */
  lemma BlankFormGenres(clicks: seq<string>, offered: seq<string>)
    requires forall i :: 0 <= i < |clicks| ==> clicks[i] in offered
    ensures NoDuplicates(ToggleThemes(BlankDraft, clicks).themes)
    ensures forall t :: t in ToggleThemes(BlankDraft, clicks).themes ==> t in offered
  {
    var d := BlankDraft;
    assert d.themes == [];
    ToggleThemesKeepsGenres(d, clicks, offered);
  }

  /** One more click flips the parity of a click count. */
  lemma OddAfterOneMore(m: nat)
    ensures ((m + 1) % 2 == 1) == (m % 2 != 1)
  {
  }

  /** A single click flips the membership of the clicked genre and of no other. */
  lemma ToggleThemeMembership(d: Draft, theme: string, t: string)
    ensures t in ToggleTheme(d, theme).themes <==> ((t in d.themes) != (t == theme))
  {
  }

  /** The occurrences of `t` in a non-empty sequence: the head's, then the tail's. */
  lemma CountHead(s: seq<string>, t: string)
    requires |s| > 0
    ensures multiset(s)[t] == (if s[0] == t then 1 else 0) + multiset(s[1..])[t]
  {
    assert s == [s[0]] + s[1..];
  }

  /** After a run of clicks a genre is chosen exactly when it was chosen before
      and was clicked an even number of times, or was not chosen and was clicked
      an odd number of times. */
  lemma {:induction false} ToggleThemesParity(d: Draft, clicks: seq<string>, t: string)
    ensures t in ToggleThemes(d, clicks).themes <==> ((t in d.themes) != (multiset(clicks)[t] % 2 == 1))
    decreases |clicks|
  {
    if |clicks| > 0 {
      ToggleThemesParity(ToggleTheme(d, clicks[0]), clicks[1..], t);
      ParityStep(d, clicks, t);
    }
  }

  /** The inductive step of `ToggleThemesParity`: the parity after the first
      click and the rest gives the parity for the whole run. */
  lemma ParityStep(d: Draft, clicks: seq<string>, t: string)
    requires |clicks| > 0
    requires var next := ToggleTheme(d, clicks[0]);
      t in ToggleThemes(next, clicks[1..]).themes <==> ((t in next.themes) != (multiset(clicks[1..])[t] % 2 == 1))
    ensures t in ToggleThemes(d, clicks).themes <==> ((t in d.themes) != (multiset(clicks)[t] % 2 == 1))
  {
    var next := ToggleTheme(d, clicks[0]);
    assert ToggleThemes(d, clicks) == ToggleThemes(next, clicks[1..]);
    ToggleThemeMembership(d, clicks[0], t);
    CountHead(clicks, t);
    var m := multiset(clicks[1..])[t];
    if t == clicks[0] {
      assert multiset(clicks)[t] == m + 1;
      assert (t in next.themes) == !(t in d.themes);
      OddAfterOneMore(m);
    } else {
      assert multiset(clicks)[t] == m;
      assert (t in next.themes) == (t in d.themes);
    }
  }

  /** From a form with no genre chosen (the blank form, or the form after a
      submit), whatever offered genres the user clicks, the genre list never
      holds a repeat or a genre outside the offered twelve. */
  lemma FormGenresFromEmpty(d: Draft, clicks: seq<string>)
    requires d.themes == []
    requires forall i :: 0 <= i < |clicks| ==> clicks[i] in AllThemes
    ensures NoDuplicates(ToggleThemes(d, clicks).themes)
    ensures forall t :: t in ToggleThemes(d, clicks).themes ==> t in AllThemes
  {
    ToggleThemesKeepsGenres(d, clicks, AllThemes);
  }
}

=== FILE: json.dfy ===
/**
  Decoded JSON values and the few JavaScript operations the catalog applies to
  them: property reads, truthiness, object spread with one overridden key,
  ASCII lowercasing and substring search.
 */
module JsonValue {
  import opened Results

  /** A value produced by `JSON.parse`. Numbers are kept integral (ids, counts). */
  datatype Json =
    | JNull
    | JBool(b: bool)
    | JNum(n: int)
    | JStr(s: string)
    | JArr(elems: seq<Json>)
    | JObj(fields: map<string, Json>)

  /** The property read `v.key`; `None` is `undefined`. Arrays, strings, numbers and
      booleans carry none of the property names the catalog reads. */
  function Get(v: Json, key: string): Option<Json>
  {
    if v.JObj? && key in v.fields then Some(v.fields[key]) else None
  }

  /** JavaScript truthiness of a property value (`undefined` is falsy). */
  predicate Truthy(o: Option<Json>)
  {
    match o
    case None => false
    case Some(JNull) => false
    case Some(JBool(b)) => b
    case Some(JNum(n)) => n != 0
    case Some(JStr(s)) => s != ""
    case Some(JArr(_)) => true
    case Some(JObj(_)) => true
  }

  /** `typeof o === 'string'`. */
  predicate IsString(o: Option<Json>) { o.Some? && o.value.JStr? }

  /** `typeof o === 'boolean'`. */
  predicate IsBool(o: Option<Json>) { o.Some? && o.value.JBool? }

  /** `Array.isArray(o)`. */
  predicate IsArray(o: Option<Json>) { o.Some? && o.value.JArr? }

  /** The object spread `{ ...v, [key]: val }` for an object `v`. */
  function WithField(v: Json, key: string, val: Json): (r: Json)
    requires v.JObj?
    ensures Get(r, key) == Some(val)
    ensures forall k :: k != key ==> Get(r, k) == Get(v, k)
  {
    JObj(v.fields[key := val])
  }

  /** `String.prototype.toLowerCase` restricted to ASCII letters. */
  function LowerChar(c: char): char
  {
    if 'A' <= c <= 'Z' then (c as int + 32) as char else c
  }

  function Lower(s: string): (r: string)
    ensures |r| == |s|
  {
    seq(|s|, i requires 0 <= i < |s| => LowerChar(s[i]))
  }

  /** `s.includes(q)`: `q` occurs in `s` as a contiguous block. */
  predicate Contains(s: string, q: string)
    decreases |s|
  {
    q <= s || (|s| > 0 && Contains(s[1..], q))
  }

  /** `q` occurs in `s` starting at position `i`. */
  predicate OccursAt(s: string, q: string, i: nat)
  {
    i + |q| <= |s| && s[i..i + |q|] == q
  }

  /** An occurrence at any position is found by the scan. */
  lemma {:induction false} OccursThenContains(s: string, q: string, i: nat)
    requires OccursAt(s, q, i)
    ensures Contains(s, q)
    decreases i
  {
    if i == 0 {
      assert s[..|q|] == q;
    } else {
      assert s[1..][i - 1..i - 1 + |q|] == s[i..i + |q|];
      OccursThenContains(s[1..], q, i - 1);
    }
  }

  /** The scan only succeeds at a real occurrence; returns its position. */
  lemma {:induction false} ContainsThenOccurs(s: string, q: string) returns (i: nat)
    requires Contains(s, q)
    ensures OccursAt(s, q, i)
    decreases |s|
  {
    if q <= s {
      assert s[0..|q|] == q;
      i := 0;
    } else {
      var j := ContainsThenOccurs(s[1..], q);
      assert s[1..][j..j + |q|] == s[j + 1..j + 1 + |q|];
      i := j + 1;
    }
  }

  /** The scanning definition of `includes` agrees with the positional one. */
  lemma ContainsIffOccurs(s: string, q: string)
    ensures Contains(s, q) <==> exists i: nat :: OccursAt(s, q, i)
  {
    if Contains(s, q) {
      var i := ContainsThenOccurs(s, q);
    }
    forall i: nat | OccursAt(s, q, i) ensures Contains(s, q) {
      OccursThenContains(s, q, i);
    }
  }

  /** Every string includes the empty string. */
  lemma ContainsEmpty(s: string)
    ensures Contains(s, "")
  {
  }
}

=== FILE: results.dfy ===
/** Optional values and success-or-error results shared by the whole model. */
module Results {

  /** A value that may be absent; `None` also stands for JavaScript's `undefined`. */
  datatype Option<+T> = None | Some(value: T)

  /** The outcome of an operation that the source can abandon by throwing. */
  datatype Result<+R, +E> = Success(value: R) | Failure(error: E)
}

=== FILE: seqs.dfy ===
/** Order-preserving filtering of sequences, the model of `Array.prototype.filter`. */
module Seqs {

  /** `a` can be obtained from `b` by deleting elements, without reordering. */
  predicate IsSubsequence<T(==)>(a: seq<T>, b: seq<T>)
    decreases |b|
  {
    if |a| == 0 then true
    else if |b| == 0 then false
    else (a[0] == b[0] && IsSubsequence(a[1..], b[1..])) || IsSubsequence(a, b[1..])
  }

  /** The elements of `s` that satisfy `p`, in their original order. */
  function Filter<T(==)>(s: seq<T>, p: T -> bool): (r: seq<T>)
    ensures |r| <= |s|
    ensures forall x :: x in r ==> x in s && p(x)
    ensures forall x :: x in s && p(x) ==> x in r
    ensures IsSubsequence(r, s)
    ensures multiset(r) <= multiset(s)
    ensures forall x :: x in multiset(s) ==> multiset(r)[x] == if p(x) then multiset(s)[x] else 0
  {
    if |s| == 0 then []
    else
      var rest := Filter(s[1..], p);
      var r := if p(s[0]) then [s[0]] + rest else rest;
      FilterMultisetStep(s, p, rest, r);
      if p(s[0]) then
        assert r[0] == s[0] && r[1..] == rest;
        r
      else r
  }

  /** The multiset step of `Filter`: keeping or dropping the head carries the
      tail's occurrence counts over to the whole sequence. */
  lemma FilterMultisetStep<T>(s: seq<T>, p: T -> bool, rest: seq<T>, r: seq<T>)
    requires |s| > 0
    requires multiset(rest) <= multiset(s[1..])
    requires forall x :: x in multiset(s[1..]) ==> multiset(rest)[x] == if p(x) then multiset(s[1..])[x] else 0
    requires r == if p(s[0]) then [s[0]] + rest else rest
    ensures multiset(r) <= multiset(s)
    ensures forall x :: x in multiset(s) ==> multiset(r)[x] == if p(x) then multiset(s)[x] else 0
  {
    assert s == [s[0]] + s[1..];
    assert multiset(s) == multiset([s[0]]) + multiset(s[1..]);
    if p(s[0]) {
      assert multiset(r) == multiset([s[0]]) + multiset(rest);
    }
    forall x | x in multiset(s) ensures multiset(r)[x] == if p(x) then multiset(s)[x] else 0 {
      if x != s[0] {
        assert x in multiset(s[1..]);
      } else if x !in multiset(s[1..]) {
        assert multiset(s[1..])[x] == 0;
        assert multiset(rest)[x] == 0;
      }
    }
  }

  /** Number of elements of `s` satisfying `p`: the `.filter(p).length` idiom. */
  function Count<T(==)>(s: seq<T>, p: T -> bool): (n: nat)
    ensures n <= |s|
  {
    |Filter(s, p)|
  }

  /** Filtering keeps the whole sequence when every element passes. */
  lemma {:induction false} FilterKeepsAll<T>(s: seq<T>, p: T -> bool)
    requires forall x :: x in s ==> p(x)
    ensures Filter(s, p) == s
  {
    if |s| > 0 {
      assert s[0] in s;
      forall x | x in s[1..] ensures p(x) {
        assert x in s;
      }
      FilterKeepsAll(s[1..], p);
      assert [s[0]] + s[1..] == s;
    }
  }

  /** Filtering keeps nothing when no element passes. */
  lemma {:induction false} FilterKeepsNone<T>(s: seq<T>, p: T -> bool)
    requires forall x :: x in s ==> !p(x)
    ensures Filter(s, p) == []
  {
    if |s| > 0 {
      assert s[0] in s;
      forall x | x in s[1..] ensures !p(x) {
        assert x in s;
      }
      FilterKeepsNone(s[1..], p);
    }
  }

  /** Counting is additive over concatenation. */
  lemma CountConcat<T>(a: seq<T>, b: seq<T>, p: T -> bool)
    ensures Count(a + b, p) == Count(a, p) + Count(b, p)
  {
    FilterConcat(a, b, p);
  }

  /** Replacing one element changes the count only by that element's contribution. */
  lemma CountUpdate<T>(s: seq<T>, k: nat, y: T, p: T -> bool)
    requires k < |s|
    ensures Count(s[k := y], p) ==
            Count(s, p) - (if p(s[k]) then 1 else 0) + (if p(y) then 1 else 0)
  {
    assert s == s[..k] + [s[k]] + s[k + 1..];
    assert s[k := y] == s[..k] + [y] + s[k + 1..];
    CountConcat(s[..k] + [s[k]], s[k + 1..], p);
    CountConcat(s[..k], [s[k]], p);
    CountConcat(s[..k] + [y], s[k + 1..], p);
    CountConcat(s[..k], [y], p);
  }

  /** Filtering distributes over concatenation. */
  lemma {:induction false} FilterConcat<T>(a: seq<T>, b: seq<T>, p: T -> bool)
    ensures Filter(a + b, p) == Filter(a, p) + Filter(b, p)
  {
    if |a| > 0 {
      assert (a + b)[0] == a[0];
      assert (a + b)[1..] == a[1..] + b;
      FilterConcat(a[1..], b, p);
    } else {
      assert a + b == b;
    }
  }

  /** Filtering twice is filtering once by the conjunction of both tests. */
  lemma {:induction false} FilterFilter<T>(s: seq<T>, p: T -> bool, q: T -> bool, both: T -> bool)
    requires forall x :: both(x) == (p(x) && q(x))
    ensures Filter(Filter(s, p), q) == Filter(s, both)
  {
    if |s| > 0 {
      FilterFilter(s[1..], p, q, both);
    }
  }
}

=== FILE: store.dfy ===
/**
  Persistence in the browser's key-value store: the catalog, the type filter
  and the favourites-only flag each live under their own key. The store is a
  string-to-string map; `JSON.parse` and `JSON.stringify` are parameters
  (`parse` answers `None` where it throws).
 */
module Store {
  import opened Results
  import opened JsonValue
  import opened Validator
  import opened Catalog
  import opened View

  type Storage = map<string, string>

  const DataKey: string := "lib4maria-data"
  const FilterKey: string := "lib4maria-filter"
  const FavoritesKey: string := "lib4maria-favorites"

  /** `localStorage.getItem(key)`; `None` is `null`. */
  function GetItem(store: Storage, key: string): Option<string>
  {
    if key in store then Some(store[key]) else None
  }

  /** A stored text is used only when it is present and non-empty (`saved ? … : …`). */
  predicate HasText(store: Storage, key: string)
  {
    key in store && store[key] != ""
  }

  /** The two sample entries used on first run and whenever loading fails. */
  const SeedCatalog: seq<Json> := [
    JObj(map[
      "id" := JNum(1), "title" := JStr("Inception"), "type" := JStr("movie"),
      "themes" := JArr([JStr("Sci-Fi"), JStr("Action"), JStr("Thriller")]),
      "releaseYear" := JStr("2010"), "rating" := JStr("9"),
      "description" := JStr("A thief who steals corporate secrets through dream-sharing technology is given the inverse task of planting an idea into the mind of a C.E.O."),
      "isFavorite" := JBool(false)]),
    JObj(map[
      "id" := JNum(2), "title" := JStr("Breaking Bad"), "type" := JStr("series"),
      "themes" := JArr([JStr("Drama"), JStr("Crime"), JStr("Thriller")]),
      "releaseYear" := JStr("2008"), "rating" := JStr("10"),
      "description" := JStr("A high school chemistry teacher turned methamphetamine manufacturer partners with a former student to secure his family's financial future."),
      "isFavorite" := JBool(true)])
  ]

  /** The seed entries pass the import validator and carry the distinct ids 1 and 2. */
  lemma SeedIsWellFormed()
    ensures forall i :: 0 <= i < |SeedCatalog| ==> IsValidMediaItem(SeedCatalog[i])
    ensures IdsUnique(SeedCatalog)
    ensures IdOf(SeedCatalog[0]) == Some(JNum(1)) && IdOf(SeedCatalog[1]) == Some(JNum(2))
  {
    SeedEntryIsValid(0);
    SeedEntryIsValid(1);
    assert IdOf(SeedCatalog[0]) == Some(JNum(1));
    assert IdOf(SeedCatalog[1]) == Some(JNum(2));
  }

  /** Each seed entry on its own passes the validator. */
  lemma SeedEntryIsValid(i: nat)
    requires i < |SeedCatalog|
    ensures IsValidMediaItem(SeedCatalog[i])
  {
  }

  /** `loadSavedData`: the decoded stored catalog, or the seed when the key is
      absent, empty or does not decode. The decoded value is returned as is:
      neither validated nor unwrapped from `{mediaItems}`. */
  function LoadCatalog(store: Storage, parse: string -> Option<Json>): (r: Json)
    ensures !HasText(store, DataKey) ==> r == JArr(SeedCatalog)
    ensures HasText(store, DataKey) && parse(store[DataKey]).None? ==> r == JArr(SeedCatalog)
    ensures HasText(store, DataKey) && parse(store[DataKey]).Some? ==> r == parse(store[DataKey]).value
  {
    if !HasText(store, DataKey) then JArr(SeedCatalog)
    else match parse(store[DataKey])
      case None => JArr(SeedCatalog)
      case Some(v) => v
  }

  /** The write-through after every catalog change: the catalog as a bare array. */
  function SaveCatalog(store: Storage, catalog: Json, stringify: Json -> string): (r: Storage)
    ensures r.Keys == store.Keys + {DataKey}
    ensures forall k :: k in store && k != DataKey ==> r[k] == store[k]
  {
    store[DataKey := stringify(catalog)]
  }

  /** A stored catalog loads back as itself when the codec round-trips it and
      its text is non-empty (`JSON.stringify` never yields ""). */
  lemma CatalogRoundTrip(store: Storage, catalog: Json, parse: string -> Option<Json>, stringify: Json -> string)
    requires stringify(catalog) != ""
    requires parse(stringify(catalog)) == Some(catalog)
    ensures LoadCatalog(SaveCatalog(store, catalog, stringify), parse) == catalog
  {
  }

  /** Text that does not decode, such as "not json", yields the seed rather than failing. */
  lemma UndecodableLoadsSeed(store: Storage, parse: string -> Option<Json>)
    requires parse("not json").None?
    ensures LoadCatalog(store[DataKey := "not json"], parse) == JArr(SeedCatalog)
  {
  }

  /** A stored non-catalog value (here the number 7) is loaded unchecked. */
  lemma LoadIsUnvalidated(store: Storage, parse: string -> Option<Json>)
    requires parse("7") == Some(JNum(7))
    ensures LoadCatalog(store[DataKey := "7"], parse) == JNum(7)
  {
  }

  /** The initial type filter: the stored text, or 'all' when absent or empty.
      Any non-empty text is accepted. */
  function LoadFilter(store: Storage): (r: string)
    ensures r != ""
    ensures HasText(store, FilterKey) ==> r == store[FilterKey]
    ensures !HasText(store, FilterKey) ==> r == "all"
  {
    if HasText(store, FilterKey) then store[FilterKey] else "all"
  }

  function SaveFilter(store: Storage, filter: string): (r: Storage)
    ensures r.Keys == store.Keys + {FilterKey}
    ensures forall k :: k in store && k != FilterKey ==> r[k] == store[k]
  {
    store[FilterKey := filter]
  }

  /** A saved filter loads back, except the empty text, which reads as 'all'. */
  lemma FilterRoundTrip(store: Storage, filter: string)
    ensures LoadFilter(SaveFilter(store, filter)) == if filter == "" then "all" else filter
  {
  }

  /** The initial favourites-only flag: whether the stored text is exactly "true". */
  function LoadFavorites(store: Storage): (r: bool)
    ensures r <==> GetItem(store, FavoritesKey) == Some("true")
  {
    FavoritesKey in store && store[FavoritesKey] == "true"
  }

  /** `setItem` stores the flag's string form, "true" or "false". */
  function SaveFavorites(store: Storage, favoritesOnly: bool): (r: Storage)
    ensures r.Keys == store.Keys + {FavoritesKey}
    ensures forall k :: k in store && k != FavoritesKey ==> r[k] == store[k]
    ensures r[FavoritesKey] in {"true", "false"}
  {
    store[FavoritesKey := if favoritesOnly then "true" else "false"]
  }

  /** The favourites flag always loads back as saved. */
  lemma FavoritesRoundTrip(store: Storage, favoritesOnly: bool)
    ensures LoadFavorites(SaveFavorites(store, favoritesOnly)) == favoritesOnly
  {
  }

  /** The three keys are independent: saving one leaves the others' loads unchanged. */
  lemma SavesAreIndependent(store: Storage, catalog: Json, filter: string, favoritesOnly: bool,
                            parse: string -> Option<Json>, stringify: Json -> string)
    ensures LoadFilter(SaveCatalog(store, catalog, stringify)) == LoadFilter(store)
    ensures LoadFavorites(SaveCatalog(store, catalog, stringify)) == LoadFavorites(store)
    ensures LoadCatalog(SaveFilter(store, filter), parse) == LoadCatalog(store, parse)
    ensures LoadFavorites(SaveFilter(store, filter)) == LoadFavorites(store)
    ensures LoadCatalog(SaveFavorites(store, favoritesOnly), parse) == LoadCatalog(store, parse)
    ensures LoadFilter(SaveFavorites(store, favoritesOnly)) == LoadFilter(store)
  {
  }

  /** The persisted view preferences. */
  datatype Prefs = Prefs(filter: string, favoritesOnly: bool)

  /** The component state read at mount. */
  datatype Session = Session(catalog: Json, prefs: Prefs)

  function LoadSession(store: Storage, parse: string -> Option<Json>): Session
  {
    Session(LoadCatalog(store, parse), Prefs(LoadFilter(store), LoadFavorites(store)))
  }

  /** The first render gets through: the loaded catalog is an array
      (`mediaItems.filter` exists); the search term being empty, every entry has
      a string title (`item.title.toLowerCase()` does not throw); and every shown
      entry has an array of themes (`item.themes.map` does not throw). */
  predicate FirstRenderSucceeds(s: Session)
  {
    && s.catalog.JArr?
    && Searchable(s.catalog.elems, "")
    && forall i :: 0 <= i < |s.catalog.elems| && Visible(s.catalog.elems[i], s.prefs.filter, "", s.prefs.favoritesOnly) ==>
         IsArray(Get(s.catalog.elems[i], "themes"))
  }

  /** The store after mount. The effects run only after the first render: when it
      throws, nothing is written; otherwise each effect runs once and writes the
      loaded value back. */
  function Mount(store: Storage, parse: string -> Option<Json>, stringify: Json -> string): (r: Storage)
    ensures !FirstRenderSucceeds(LoadSession(store, parse)) ==> r == store
    ensures FirstRenderSucceeds(LoadSession(store, parse)) ==>
      && r.Keys == store.Keys + {DataKey, FilterKey, FavoritesKey}
      && (forall k :: k in store && k !in {DataKey, FilterKey, FavoritesKey} ==> r[k] == store[k])
      && r[DataKey] == stringify(LoadCatalog(store, parse))
      && r[FilterKey] == LoadFilter(store)
      && r[FavoritesKey] == if LoadFavorites(store) then "true" else "false"
  {
    var s := LoadSession(store, parse);
    if !FirstRenderSucceeds(s) then store
    else SaveFavorites(SaveFilter(SaveCatalog(store, s.catalog, stringify), s.prefs.filter), s.prefs.favoritesOnly)
  }

  /** A stored catalog text that decodes to the number 7 crashes the first render
      (`mediaItems.filter` is not a function), so mounting writes nothing, not even
      the filter and favourites keys. */
  lemma UnrenderableCatalogIsNotWrittenBack(store: Storage, parse: string -> Option<Json>, stringify: Json -> string)
    requires DataKey in store && store[DataKey] == "7"
    requires parse("7") == Some(JNum(7))
    ensures Mount(store, parse, stringify) == store
    ensures FilterKey !in store ==> FilterKey !in Mount(store, parse, stringify)
  {
    assert LoadCatalog(store, parse) == JNum(7);
  }

  /** On first run the seed renders, so mounting an empty store writes the seed,
      'all' and "false" under the three keys. */
  lemma FirstRunIsWrittenBack(parse: string -> Option<Json>, stringify: Json -> string)
    ensures var r := Mount(map[], parse, stringify);
            && r.Keys == {DataKey, FilterKey, FavoritesKey}
            && r[DataKey] == stringify(JArr(SeedCatalog))
            && r[FilterKey] == "all" && r[FavoritesKey] == "false"
  {
    var s := LoadSession(map[], parse);
    assert s.catalog == JArr(SeedCatalog);
    SeedEntryIsValid(0);
    SeedEntryIsValid(1);
    assert Searchable(SeedCatalog, "") by {
      assert Lower("") == "";
      forall i | 0 <= i < |SeedCatalog| ensures SearchHit(SeedCatalog[i], "").Some? {
        SeedEntryIsValid(i);
        ContainsEmpty(Lower(Get(SeedCatalog[i], "title").value.s));
      }
    }
    assert FirstRenderSucceeds(s) by {
      forall i | 0 <= i < |SeedCatalog| ensures IsArray(Get(SeedCatalog[i], "themes")) {
        SeedEntryIsValid(i);
      }
    }
  }

  /** Mounting again after a mount reads the same state: the write-back is a fixed
      point whenever the codec round-trips the loaded catalog. */
  lemma MountIsStable(store: Storage, parse: string -> Option<Json>, stringify: Json -> string)
    requires stringify(LoadCatalog(store, parse)) != ""
    requires parse(stringify(LoadCatalog(store, parse))) == Some(LoadCatalog(store, parse))
    ensures LoadSession(Mount(store, parse, stringify), parse) == LoadSession(store, parse)
  {
  }

  /** The outcome of `clearData`. */
  datatype ClearOutcome =
    | Declined                                             // the confirmation was refused
    | ClearFailed                                          // `localStorage.clear()` threw; reported to the user
    | Cleared(catalog: seq<Json>, prefs: Prefs, store: Storage)

  /** `clearData`: wipe the whole store (every key of the origin, not only this
      component's), empty the catalog and reset the preferences. The effects then
      write the empty catalog back, and the filter and flag only when they change. */
  function ClearData(prefs: Prefs, store: Storage, confirmed: bool, clearThrows: bool,
                     stringify: Json -> string): (r: ClearOutcome)
    ensures r.Declined? <==> !confirmed
    ensures r.ClearFailed? <==> confirmed && clearThrows
    ensures r.Cleared? ==> r.catalog == [] && r.prefs == Prefs("all", false)
    ensures r.Cleared? ==> r.store.Keys <= {DataKey, FilterKey, FavoritesKey} && DataKey in r.store
    ensures r.Cleared? ==> (FilterKey in r.store <==> prefs.filter != "all")
    ensures r.Cleared? ==> (FavoritesKey in r.store <==> prefs.favoritesOnly)
  {
    if !confirmed then Declined
    else if clearThrows then ClearFailed
    else
      var wiped: Storage := map[];
      var afterData := SaveCatalog(wiped, JArr([]), stringify);
      var afterFilter := if prefs.filter != "all" then SaveFilter(afterData, "all") else afterData;
      var afterFlag := if prefs.favoritesOnly then SaveFavorites(afterFilter, false) else afterFilter;
      Cleared([], Prefs("all", false), afterFlag)
  }

  /** After a clear, the next mount reads an empty catalog, 'all' and favourites off,
      whichever keys the effects happened to rewrite. */
  lemma ReloadAfterClear(prefs: Prefs, store: Storage, parse: string -> Option<Json>, stringify: Json -> string)
    requires stringify(JArr([])) != ""
    requires parse(stringify(JArr([]))) == Some(JArr([]))
    ensures var r := ClearData(prefs, store, true, false, stringify);
            LoadSession(r.store, parse) == Session(JArr([]), Prefs("all", false))
  {
  }
}

=== FILE: transfer.dfy ===
/**
  The backup document (`exportData`) and the import of such a document
  (`importData`'s load handler): shape check, validation, id reassignment from
  one clock reading, then append or replace.
 */
module Transfer {
  import opened Results
  import opened JsonValue
  import opened Seqs
  import opened Validator
  import opened Catalog

  /** Why an import is abandoned; the catalog then stays as it was. */
  datatype ImportError =
    | Unparsable      // `JSON.parse` threw
    | NullDocument    // the document is `null`: reading `mediaItems` throws
    | InvalidFormat   // neither an array nor an object with a `mediaItems` array
    | NoValidItems    // no candidate passed the validator

  /** The export document `{ mediaItems: items }`. */
  function Export(items: seq<Json>): (doc: Json)
    ensures doc.JObj? && doc.fields.Keys == {"mediaItems"}
    ensures Get(doc, "mediaItems") == Some(JArr(items))
  {
    JObj(map["mediaItems" := JArr(items)])
  }

  /** The candidate list of a document: a bare array, or the `mediaItems` array
      of an object. */
  function Candidates(doc: Json): Option<seq<Json>>
  {
    match doc
    case JArr(xs) => Some(xs)
    case JObj(m) =>
      if "mediaItems" in m && m["mediaItems"].JArr? then Some(m["mediaItems"].elems) else None
    case _ => None
  }

  /** The entry `{ ...item, id }`. */
  function WithId(item: Json, id: int): Json
    requires item.JObj?
  {
    WithField(item, "id", JNum(id))
  }

  /** Two objects that agree on every key except `id`. */
  predicate SameExceptId(a: Json, b: Json)
  {
    a.JObj? && b.JObj? && a.fields - {"id"} == b.fields - {"id"}
  }

  /** `items.map((item, index) => ({ ...item, id: timestamp + index }))`. */
  function Renumber(items: seq<Json>, timestamp: int): (r: seq<Json>)
    requires forall i :: 0 <= i < |items| ==> items[i].JObj?
    ensures |r| == |items|
    ensures forall i :: 0 <= i < |r| ==> IdOf(r[i]) == Some(JNum(timestamp + i))
    ensures forall i :: 0 <= i < |r| ==> SameExceptId(r[i], items[i])
    decreases |items|
  {
    if |items| == 0 then []
    else
      var head := WithId(items[0], timestamp);
      var rest := Renumber(items[1..], timestamp + 1);
      assert head.fields - {"id"} == items[0].fields - {"id"};
      assert forall i :: 1 <= i < |items| ==> ([head] + rest)[i] == rest[i - 1] && items[1..][i - 1] == items[i];
      [head] + rest
  }

  /** The candidates that pass the validator, in document order: every valid
      candidate survives, with its multiplicity, and nothing else does. */
  function Survivors(candidates: seq<Json>): (r: seq<Json>)
    ensures forall i :: 0 <= i < |r| ==> r[i].JObj? && IsValidMediaItem(r[i])
    ensures forall x :: x in candidates && IsValidMediaItem(x) ==> x in r
    ensures IsSubsequence(r, candidates)
    ensures multiset(r) <= multiset(candidates)
    ensures forall x :: x in multiset(candidates) && IsValidMediaItem(x) ==> multiset(r)[x] == multiset(candidates)[x]
  {
    var r := Filter(candidates, IsValidMediaItem);
    forall i | 0 <= i < |r| ensures r[i].JObj? {
      assert r[i] in r;
      ValidIsObject(r[i]);
    }
    r
  }

  /** The imported batch: `batch` is `valid` renumbered from `timestamp`. */
  predicate IsBatchOf(batch: seq<Json>, valid: seq<Json>, timestamp: int)
  {
    && |batch| == |valid|
    && (forall i :: 0 <= i < |batch| ==> IdOf(batch[i]) == Some(JNum(timestamp + i)))
    && (forall i :: 0 <= i < |batch| ==> SameExceptId(batch[i], valid[i]))
  }

  /** The import of a decoded document at clock reading `timestamp`; `addToExisting`
      is the user's answer to the append-or-replace prompt. The result is the new
      catalog. */
  function Import(doc: Json, timestamp: int, addToExisting: bool, existing: seq<Json>): (r: Result<seq<Json>, ImportError>)
    ensures r == Failure(NullDocument) <==> doc == JNull
    ensures r == Failure(InvalidFormat) <==> doc != JNull && Candidates(doc).None?
    ensures r == Failure(NoValidItems) <==>
      Candidates(doc).Some? && forall x :: x in Candidates(doc).value ==> !IsValidMediaItem(x)
    ensures r.Success? <==>
      Candidates(doc).Some? && exists x :: x in Candidates(doc).value && IsValidMediaItem(x)
    ensures r.Success? ==>
      var valid := Filter(Candidates(doc).value, IsValidMediaItem);
      if addToExisting then
        |r.value| == |existing| + |valid| && r.value[..|existing|] == existing &&
        IsBatchOf(r.value[|existing|..], valid, timestamp)
      else
        IsBatchOf(r.value, valid, timestamp)
  {
    if doc == JNull then Failure(NullDocument)
    else match Candidates(doc)
      case None => Failure(InvalidFormat)
      case Some(candidates) =>
        var valid := Survivors(candidates);
        if |valid| == 0 then
          assert forall x :: x in candidates ==> !IsValidMediaItem(x);
          Failure(NoValidItems)
        else
          assert valid[0] in candidates && IsValidMediaItem(valid[0]);
          var batch := Renumber(valid, timestamp);
          if addToExisting then
            assert (existing + batch)[..|existing|] == existing;
            assert (existing + batch)[|existing|..] == batch;
            Success(existing + batch)
          else Success(batch)
  }

  /** `JSON.parse` of the file's text, then the import. `parse` is the decoder,
      `None` where it throws. */
  function ImportText(text: string, parse: string -> Option<Json>, timestamp: int,
                      addToExisting: bool, existing: seq<Json>): (r: Result<seq<Json>, ImportError>)
    ensures parse(text).None? ==> r == Failure(Unparsable)
    ensures parse(text).Some? ==> r == Import(parse(text).value, timestamp, addToExisting, existing)
  {
    match parse(text)
    case None => Failure(Unparsable)
    case Some(doc) => Import(doc, timestamp, addToExisting, existing)
  }

  /** Within one imported batch ids are pairwise distinct. */
  lemma BatchIdsUnique(batch: seq<Json>, valid: seq<Json>, timestamp: int)
    requires IsBatchOf(batch, valid, timestamp)
    ensures IdsUnique(batch)
  {
  }

  /** Appending a batch keeps every id unique when the existing ids were unique
      and none of them falls in `timestamp .. timestamp + |batch| - 1`. */
  lemma AppendedBatchKeepsIdsUnique(existing: seq<Json>, batch: seq<Json>, valid: seq<Json>, timestamp: int)
    requires IdsUnique(existing)
    requires IsBatchOf(batch, valid, timestamp)
    requires forall i, k :: 0 <= i < |existing| && timestamp <= k < timestamp + |batch| ==>
      IdOf(existing[i]) != Some(JNum(k))
    ensures IdsUnique(existing + batch)
  {
    var r := existing + batch;
    forall i | 0 <= i < |r| ensures IdOf(r[i]).Some? {
      if i >= |existing| { assert r[i] == batch[i - |existing|]; }
    }
    forall i, j | 0 <= i < j < |r| ensures IdOf(r[i]) != IdOf(r[j]) {
      if j >= |existing| {
        assert r[j] == batch[j - |existing|];
        if i >= |existing| {
          assert r[i] == batch[i - |existing|];
        } else {
          assert IdOf(existing[i]) != Some(JNum(timestamp + j - |existing|));
        }
      }
    }
  }

  /** A colliding clock reading breaks uniqueness: the import does not guard it. */
  lemma AppendedImportCanCollide(doc: Json, timestamp: int, existing: seq<Json>)
    requires Import(doc, timestamp, true, existing).Success?
    requires exists i :: 0 <= i < |existing| && IdOf(existing[i]) == Some(JNum(timestamp))
    ensures !IdsUnique(Import(doc, timestamp, true, existing).value)
  {
    var r := Import(doc, timestamp, true, existing).value;
    var i :| 0 <= i < |existing| && IdOf(existing[i]) == Some(JNum(timestamp));
    assert r[i] == existing[i];
    assert r[|existing|] == r[|existing|..][0];
  }

  /** A list of valid entries survives validation whole. */
  lemma SurvivorsOfValid(items: seq<Json>)
    requires forall i :: 0 <= i < |items| ==> IsValidMediaItem(items[i])
    ensures Survivors(items) == items
  {
    forall x | x in items ensures IsValidMediaItem(x) {
      var i :| 0 <= i < |items| && items[i] == x;
    }
    FilterKeepsAll(items, IsValidMediaItem);
  }

  /** Exporting a catalog of valid entries and importing the document with
      "replace" gives the catalog back with fresh ids `timestamp + i` and every
      other field unchanged. */
  lemma {:induction false} ExportImportRoundTrip(items: seq<Json>, timestamp: int, existing: seq<Json>)
    requires |items| > 0
    requires forall i :: 0 <= i < |items| ==> IsValidMediaItem(items[i])
    ensures var r := Import(Export(items), timestamp, false, existing);
            r.Success? && IsBatchOf(r.value, items, timestamp)
  {
    SurvivorsOfValid(items);
    assert Candidates(Export(items)) == Some(items);
    assert Import(Export(items), timestamp, false, existing) == Success(Renumber(items, timestamp));
  }

  /** Exporting an empty catalog gives a backup that cannot be imported back. */
  lemma EmptyExportIsRejected(timestamp: int, addToExisting: bool, existing: seq<Json>)
    ensures Import(Export([]), timestamp, addToExisting, existing) == Failure(NoValidItems)
  {
    assert Candidates(Export([])) == Some([]);
    assert Survivors([]) == [];
  }

  /** The document `{ mediaItems: [ {title: "X", type: "bad-kind", ...} ] }` is
      rejected with `NoValidItems`. */
  lemma OnlyInvalidEntryIsRejected(timestamp: int, addToExisting: bool, existing: seq<Json>)
    ensures Import(Export([JObj(map["title" := JStr("X"), "type" := JStr("bad-kind"),
        "themes" := JArr([]), "releaseYear" := JStr("2020"), "rating" := JStr("5"),
        "description" := JStr("d"), "isFavorite" := JBool(false)])]),
      timestamp, addToExisting, existing) == Failure(NoValidItems)
  {
    var item := JObj(map["title" := JStr("X"), "type" := JStr("bad-kind"),
        "themes" := JArr([]), "releaseYear" := JStr("2020"), "rating" := JStr("5"),
        "description" := JStr("d"), "isFavorite" := JBool(false)]);
    assert !IsValidMediaItem(item);
    assert Candidates(Export([item])) == Some([item]);
    FilterKeepsNone([item], IsValidMediaItem);
  }

  /** A bare array holding one valid entry imports as one appended entry whose
      id is the clock reading. */
  lemma BareArrayImport(timestamp: int, existing: seq<Json>)
    ensures var item := JObj(map["title" := JStr("Y"), "type" := JStr("movie"),
        "themes" := JArr([]), "releaseYear" := JStr("2020"), "rating" := JStr("5"),
        "description" := JStr("d"), "isFavorite" := JBool(false)]);
      var r := Import(JArr([item]), timestamp, true, existing);
      r.Success? && |r.value| == |existing| + 1 && IdOf(r.value[|existing|]) == Some(JNum(timestamp))
  {
    var item := JObj(map["title" := JStr("Y"), "type" := JStr("movie"),
        "themes" := JArr([]), "releaseYear" := JStr("2020"), "rating" := JStr("5"),
        "description" := JStr("d"), "isFavorite" := JBool(false)]);
    assert IsValidMediaItem(item);
    assert item in [item];
  }
}

=== FILE: validator.dfy ===
/** The ingestion gate for imported entries (`isValidMediaItem`). */
module Validator {
  import opened Results
  import opened JsonValue

  /** The check chain of the source, in its order: a truthy value whose
      `title` is a string, whose `type` is "movie" or "series", whose `themes`
      is an array (elements unchecked), whose `releaseYear`, `rating` and
      `description` are strings and whose `isFavorite` is a boolean. */
  predicate IsValidMediaItem(item: Json)
  {
    && Truthy(Some(item))
    && IsString(Get(item, "title"))
    && Get(item, "type") in [Some(JStr("movie")), Some(JStr("series"))]
    && IsArray(Get(item, "themes"))
    && IsString(Get(item, "releaseYear"))
    && IsString(Get(item, "rating"))
    && IsString(Get(item, "description"))
    && IsBool(Get(item, "isFavorite"))
  }

  /** The JSON types an entry field may have. */
  datatype FieldType = Text | Flag | List | Kind

  /** An independent statement of the entry shape: each required key and its type. */
  const EntrySchema: map<string, FieldType> :=
    map["title" := Text, "type" := Kind, "themes" := List, "releaseYear" := Text,
        "rating" := Text, "description" := Text, "isFavorite" := Flag]

  predicate HasType(v: Json, t: FieldType)
  {
    match t
    case Text => v.JStr?
    case Flag => v.JBool?
    case List => v.JArr?
    case Kind => v == JStr("movie") || v == JStr("series")
  }

  /** An object carrying every schema key with a value of the schema's type. */
  predicate ConformsToSchema(item: Json)
  {
    item.JObj? && forall k :: k in EntrySchema ==> k in item.fields && HasType(item.fields[k], EntrySchema[k])
  }

  /** The validator accepts exactly the objects that conform to the schema:
      no `id`, no theme element type, no non-emptiness and no range is checked. */
  lemma ValidIffConforms(item: Json)
    ensures IsValidMediaItem(item) <==> ConformsToSchema(item)
  {
    if ConformsToSchema(item) {
      assert "title" in EntrySchema && "type" in EntrySchema && "themes" in EntrySchema;
      assert "releaseYear" in EntrySchema && "rating" in EntrySchema;
      assert "description" in EntrySchema && "isFavorite" in EntrySchema;
    }
  }

  /** Only objects pass: `null`, arrays, strings, numbers and booleans are rejected. */
  lemma ValidIsObject(item: Json)
    requires IsValidMediaItem(item)
    ensures item.JObj?
  {
  }

  /** Keys outside the schema (in particular `id`) do not affect validity. */
  lemma ValidIgnoresOtherKeys(item: Json, key: string, val: Json)
    requires item.JObj?
    requires key !in EntrySchema
    ensures IsValidMediaItem(WithField(item, key, val)) <==> IsValidMediaItem(item)
  {
    ValidIffConforms(item);
    ValidIffConforms(WithField(item, key, val));
  }

  /** The elements of `themes` are never inspected: any array will do. */
  lemma ValidIgnoresThemeElements(item: Json, themes: seq<Json>)
    requires IsValidMediaItem(item)
    ensures IsValidMediaItem(WithField(item, "themes", JArr(themes)))
  {
  }

  /** An entry with an empty title, numeric themes and an out-of-range rating passes. */
  lemma LooseEntryIsValid()
    ensures IsValidMediaItem(JObj(map[
      "title" := JStr(""), "type" := JStr("series"), "themes" := JArr([JNum(7), JNull]),
      "releaseYear" := JStr("year"), "rating" := JStr("99"), "description" := JStr(""),
      "isFavorite" := JBool(true)]))
  {
  }

  /** A wrong `type` is enough to reject an otherwise complete entry. */
  lemma BadKindIsInvalid(item: Json)
    requires item.JObj? && Get(item, "type") == Some(JStr("bad-kind"))
    ensures !IsValidMediaItem(item)
  {
  }
}

=== FILE: view.dfy ===
/**
  The filtered list shown to the user (`filteredMedia`), the counters on the
  filter buttons, and the random pick from the filtered list.
 */
module View {
  import opened Results
  import opened JsonValue
  import opened Seqs
  import opened Catalog

  /** `filter === 'all' || item.type === filter`. */
  predicate MatchesFilter(item: Json, filter: string)
  {
    filter == "all" || Get(item, "type") == Some(JStr(filter))
  }

  /** `!showFavoritesOnly || item.isFavorite`, with JavaScript truthiness. */
  predicate MatchesFavorites(item: Json, favoritesOnly: bool)
  {
    !favoritesOnly || Truthy(Get(item, "isFavorite"))
  }

  /** The first `i` themes are strings and none contains `q`: `.some` walks past them. */
  predicate PassedBefore(themes: seq<Json>, q: string, i: nat)
  {
    forall j :: 0 <= j < i && j < |themes| ==> themes[j].JStr? && !Contains(Lower(themes[j].s), q)
  }

  /** `.some` walks past `themes[0]` exactly when it is a non-matching string. */
  lemma PassedBeforeShift(themes: seq<Json>, q: string, i: nat)
    requires 0 < i <= |themes|
    ensures PassedBefore(themes, q, i) <==>
      themes[0].JStr? && !Contains(Lower(themes[0].s), q) && PassedBefore(themes[1..], q, i - 1)
  {
    if themes[0].JStr? && !Contains(Lower(themes[0].s), q) && PassedBefore(themes[1..], q, i - 1) {
      forall j | 0 <= j < i ensures themes[j].JStr? && !Contains(Lower(themes[j].s), q) {
        if j > 0 { assert themes[j] == themes[1..][j - 1]; }
      }
    }
    if PassedBefore(themes, q, i) {
      forall j | 0 <= j < i - 1 ensures themes[1..][j].JStr? && !Contains(Lower(themes[1..][j].s), q) {
        assert themes[1..][j] == themes[j + 1];
      }
    }
  }

  /** `.some` throws at some theme it reaches. */
  predicate ThrowsSomewhere(themes: seq<Json>, q: string)
  {
    exists i :: 0 <= i < |themes| && !themes[i].JStr? && PassedBefore(themes, q, i)
  }

  /** `.some` finds a matching theme before anything stops it. */
  predicate HitsSomewhere(themes: seq<Json>, q: string)
  {
    exists i :: 0 <= i < |themes| && themes[i].JStr? && Contains(Lower(themes[i].s), q) && PassedBefore(themes, q, i)
  }

  /** Past a non-matching string head, `.some` throws on the list iff on its tail. */
  lemma ThrowsSomewhereShift(themes: seq<Json>, q: string)
    requires |themes| > 0 && themes[0].JStr? && !Contains(Lower(themes[0].s), q)
    ensures ThrowsSomewhere(themes, q) <==> ThrowsSomewhere(themes[1..], q)
  {
    if ThrowsSomewhere(themes, q) {
      var i :| 0 <= i < |themes| && !themes[i].JStr? && PassedBefore(themes, q, i);
      PassedBeforeShift(themes, q, i);
      assert !themes[1..][i - 1].JStr?;
    }
    if ThrowsSomewhere(themes[1..], q) {
      var i :| 0 <= i < |themes[1..]| && !themes[1..][i].JStr? && PassedBefore(themes[1..], q, i);
      PassedBeforeShift(themes, q, i + 1);
      assert !themes[i + 1].JStr?;
    }
  }

  /** Past a non-matching string head, `.some` hits on the list iff on its tail. */
  lemma HitsSomewhereShift(themes: seq<Json>, q: string)
    requires |themes| > 0 && themes[0].JStr? && !Contains(Lower(themes[0].s), q)
    ensures HitsSomewhere(themes, q) <==> HitsSomewhere(themes[1..], q)
  {
    if HitsSomewhere(themes, q) {
      var i :| 0 <= i < |themes| && themes[i].JStr? && Contains(Lower(themes[i].s), q) && PassedBefore(themes, q, i);
      PassedBeforeShift(themes, q, i);
      assert themes[1..][i - 1] == themes[i];
    }
    if HitsSomewhere(themes[1..], q) {
      var i :| 0 <= i < |themes[1..]| && themes[1..][i].JStr? && Contains(Lower(themes[1..][i].s), q) &&
        PassedBefore(themes[1..], q, i);
      PassedBeforeShift(themes, q, i + 1);
      assert themes[i + 1] == themes[1..][i];
    }
  }

  /** A head that stops `.some` (a non-string or a match) is the only place it can stop. */
  lemma StopsAtHead(themes: seq<Json>, q: string)
    requires |themes| > 0 && !(themes[0].JStr? && !Contains(Lower(themes[0].s), q))
    ensures forall i :: 0 < i <= |themes| ==> !PassedBefore(themes, q, i)
  {
  }

  /** `themes.some(theme => theme.toLowerCase().includes(q))`, stopping at the
      first hit; `None` when it reaches a theme that is not a string (throws). */
  function ThemesHit(themes: seq<Json>, q: string): (r: Option<bool>)
    ensures r.None? <==> ThrowsSomewhere(themes, q)
    ensures r == Some(true) <==> HitsSomewhere(themes, q)
    ensures r == Some(false) <==> PassedBefore(themes, q, |themes|)
    decreases |themes|
  {
    if |themes| == 0 then Some(false)
    else if !themes[0].JStr? then
      StopsAtHead(themes, q);
      assert PassedBefore(themes, q, 0);
      None
    else if Contains(Lower(themes[0].s), q) then
      StopsAtHead(themes, q);
      assert PassedBefore(themes, q, 0);
      Some(true)
    else
      ThrowsSomewhereShift(themes, q);
      HitsSomewhereShift(themes, q);
      PassedBeforeShift(themes, q, |themes|);
      ThemesHit(themes[1..], q)
  }

  /** The search test for one entry with the lowered term `q`: the title first,
      then the themes. `None` when evaluating it throws: the title is not a
      string, or it misses and `themes` is not an array or holds a non-string
      before the first hit. */
  function SearchHit(item: Json, q: string): (r: Option<bool>)
    ensures r.None? <==>
      !IsString(Get(item, "title")) ||
      (!Contains(Lower(Get(item, "title").value.s), q) &&
       (!IsArray(Get(item, "themes")) || ThemesHit(Get(item, "themes").value.elems, q).None?))
    ensures r == Some(true) <==>
      IsString(Get(item, "title")) &&
      (Contains(Lower(Get(item, "title").value.s), q) ||
       (IsArray(Get(item, "themes")) && ThemesHit(Get(item, "themes").value.elems, q) == Some(true)))
    ensures r == Some(false) <==>
      IsString(Get(item, "title")) && !Contains(Lower(Get(item, "title").value.s), q) &&
      IsArray(Get(item, "themes")) && ThemesHit(Get(item, "themes").value.elems, q) == Some(false)
  {
    var title := Get(item, "title");
    if !IsString(title) then None
    else if Contains(Lower(title.value.s), q) then Some(true)
    else
      var themes := Get(item, "themes");
      if !IsArray(themes) then None
      else ThemesHit(themes.value.elems, q)
  }

  /** Rendering the list does not throw for this search term. */
  predicate Searchable(items: seq<Json>, term: string)
  {
    forall i :: 0 <= i < |items| ==> SearchHit(items[i], Lower(term)).Some?
  }

  /** The three conjoined tests of the filtered view. */
  predicate Visible(item: Json, filter: string, term: string, favoritesOnly: bool)
  {
    && MatchesFilter(item, filter)
    && SearchHit(item, Lower(term)) == Some(true)
    && MatchesFavorites(item, favoritesOnly)
  }

  /** `filteredMedia`. The source throws while rendering unless every entry's
      search test can be evaluated, hence the precondition. */
  function FilteredMedia(items: seq<Json>, filter: string, term: string, favoritesOnly: bool): (r: seq<Json>)
    requires Searchable(items, term)
    ensures IsSubsequence(r, items)
    ensures forall x :: x in r ==> x in items && Visible(x, filter, term, favoritesOnly)
    ensures forall x :: x in items && Visible(x, filter, term, favoritesOnly) ==> x in r
    ensures multiset(r) <= multiset(items)
    ensures forall x :: x in multiset(items) && Visible(x, filter, term, favoritesOnly) ==>
      multiset(r)[x] == multiset(items)[x]
  {
    Filter(items, x => Visible(x, filter, term, favoritesOnly))
  }

  /** With 'all', favourites off and an empty search the view is the whole catalog. */
  lemma UnfilteredViewIsCatalog(items: seq<Json>)
    requires Searchable(items, "")
    ensures FilteredMedia(items, "all", "", false) == items
  {
    forall x | x in items ensures Visible(x, "all", "", false) {
      var i :| 0 <= i < |items| && items[i] == x;
      assert SearchHit(x, Lower("")).Some?;
      ContainsEmpty(Lower(Get(x, "title").value.s));
    }
    FilterKeepsAll(items, x => Visible(x, "all", "", false));
  }

  /** The type filter narrows the 'all' view: filtering by a kind equals
      filtering the 'all' view by that kind. */
  lemma KindFilterNarrowsAllView(items: seq<Json>, kind: string, term: string, favoritesOnly: bool)
    requires Searchable(items, term)
    ensures FilteredMedia(items, kind, term, favoritesOnly) ==
            Filter(FilteredMedia(items, "all", term, favoritesOnly), x => MatchesFilter(x, kind))
  {
    FilterFilter(items, x => Visible(x, "all", term, favoritesOnly), x => MatchesFilter(x, kind),
                 x => Visible(x, kind, term, favoritesOnly));
  }

  /** `favoritesCount`: entries whose `isFavorite` is truthy, over the whole catalog. */
  function FavoritesCount(items: seq<Json>): (n: nat)
    ensures n <= |items|
  {
    Count(items, x => Truthy(Get(x, "isFavorite")))
  }

  /** Adding an entry leaves the favourites counter unchanged: it starts unset. */
  lemma FavoritesCountAfterAdd(items: seq<Json>, d: Draft, now: int)
    ensures FavoritesCount(Add(items, d, now)) == FavoritesCount(items)
  {
    CountConcat(items, [NewItem(d, now)], x => Truthy(Get(x, "isFavorite")));
    assert Add(items, d, now) == items + [NewItem(d, now)];
  }

  /** With unique ids, toggling the entry at `k` moves the favourites counter by
      exactly one, whatever its flag held: down if it was truthy, up if not. */
  lemma FavoritesCountAfterToggle(items: seq<Json>, k: nat)
    requires IdsUnique(items)
    requires !HasNullEntry(items)
    requires k < |items|
    ensures var toggled := ToggleFavorite(items, IdOf(items[k]).value).value;
            FavoritesCount(toggled) ==
            FavoritesCount(items) + (if Truthy(Get(items[k], "isFavorite")) then -1 else 1)
  {
    var id := IdOf(items[k]).value;
    var toggled := ToggleFavorite(items, id).value;
    assert items[k].JObj?;
    forall i | 0 <= i < |items| ensures toggled[i] == items[k := Flip(items[k])][i] {
      if i != k { assert IdOf(items[i]) != IdOf(items[k]); }
    }
    assert toggled == items[k := Flip(items[k])];
    CountUpdate(items, k, Flip(items[k]), x => Truthy(Get(x, "isFavorite")));
  }

  /** Number of entries of `view` whose `type` is `kind`. */
  function CountKind(view: seq<Json>, kind: string): (n: nat)
    ensures n <= |view|
  {
    if |view| == 0 then 0
    else (if Get(view[0], "type") == Some(JStr(kind)) then 1 else 0) + CountKind(view[1..], kind)
  }

  /** The counter agrees with the source's `.filter(item => item.type === kind).length`. */
  lemma {:induction false} CountKindIsFilterLength(view: seq<Json>, kind: string)
    ensures CountKind(view, kind) == |Filter(view, x => Get(x, "type") == Some(JStr(kind)))|
  {
    if |view| > 0 {
      CountKindIsFilterLength(view[1..], kind);
    }
  }

  /** Two different kinds are counted on disjoint entries. */
  lemma {:induction false} CountsDisjoint(view: seq<Json>, a: string, b: string)
    requires a != b
    ensures CountKind(view, a) + CountKind(view, b) <= |view|
  {
    if |view| > 0 {
      CountsDisjoint(view[1..], a, b);
    }
  }

  /** In a view of one kind, that kind counts every entry and any other kind none. */
  lemma {:induction false} SingleKindCounts(view: seq<Json>, kind: string, other: string)
    requires forall i :: 0 <= i < |view| ==> Get(view[i], "type") == Some(JStr(kind))
    requires other != kind
    ensures CountKind(view, kind) == |view|
    ensures CountKind(view, other) == 0
  {
    if |view| > 0 {
      assert forall i :: 0 <= i < |view[1..]| ==> view[1..][i] == view[i + 1];
      SingleKindCounts(view[1..], kind, other);
    }
  }

  /** `currentFilterCounts`: movies and series within the filtered view. */
  datatype KindCounts = KindCounts(movies: nat, series: nat)

  function CurrentFilterCounts(view: seq<Json>): (c: KindCounts)
    ensures c.movies + c.series <= |view|
  {
    CountsDisjoint(view, "movie", "series");
    KindCounts(CountKind(view, "movie"), CountKind(view, "series"))
  }

  /** The 'movie' view is all movies, so its movie counter equals its length and
      its series counter is zero. */
  lemma MovieViewCounts(items: seq<Json>, term: string, favoritesOnly: bool)
    requires Searchable(items, term)
    ensures var view := FilteredMedia(items, "movie", term, favoritesOnly);
            CurrentFilterCounts(view).movies == |view| && CurrentFilterCounts(view).series == 0
  {
    var view := FilteredMedia(items, "movie", term, favoritesOnly);
    assert forall i :: 0 <= i < |view| ==> view[i] in view;
    SingleKindCounts(view, "movie", "series");
  }

  /** `Math.floor(Math.random() * n)` for a draw `u` in [0, 1). */
  function PickIndex(u: real, n: nat): (i: nat)
    requires 0.0 <= u < 1.0
    requires n > 0
    ensures i < n
    ensures i as real <= u * n as real < i as real + 1.0
  {
    var x := u * n as real;
    assert x < n as real;
    x.Floor
  }

  /** Every position can be drawn: `u = i / n` lands on `i`. */
  lemma PickIndexReachesEvery(i: nat, n: nat)
    requires i < n
    ensures 0.0 <= i as real / n as real < 1.0
    ensures PickIndex(i as real / n as real, n) == i
  {
    assert (i as real / n as real) * n as real == i as real;
  }

  /** `findRandomMedia`: nothing when the view is empty, otherwise the entry at
      the drawn position. */
  function RandomPick(view: seq<Json>, u: real): (r: Option<Json>)
    requires 0.0 <= u < 1.0
    ensures r.None? <==> |view| == 0
    ensures r.Some? ==> r.value in view
  {
    if |view| > 0 then Some(view[PickIndex(u, |view|)]) else None
  }

  /** Every entry of a non-empty view can be picked: the draw `i / n` picks the
      entry at position `i`. */
  lemma RandomPickReachesEvery(view: seq<Json>, i: nat)
    requires i < |view|
    ensures 0.0 <= i as real / |view| as real < 1.0
    ensures RandomPick(view, i as real / |view| as real) == Some(view[i])
  {
    PickIndexReachesEvery(i, |view|);
  }

  /** Each entry owns the interval of draws [i/n, (i+1)/n), of width 1/n: every
      draw in it picks the entry at position `i`. */
  lemma RandomPickInterval(view: seq<Json>, u: real, i: nat)
    requires i < |view|
    requires i as real / |view| as real <= u < (i + 1) as real / |view| as real
    ensures 0.0 <= u < 1.0
    ensures RandomPick(view, u) == Some(view[i])
  {
    var n := |view| as real;
    assert i as real <= u * n by {
      assert (i as real / n) * n == i as real;
    }
    assert u * n < (i + 1) as real by {
      assert ((i + 1) as real / n) * n == (i + 1) as real;
    }
    assert (i + 1) as real / n <= 1.0;
    var j := PickIndex(u, |view|);
    assert j == i;
  }

  /** An entry `{title: "Dune", themes: ["Sci-Fi"]}`. */
  const Dune: Json := JObj(map["title" := JStr("Dune"), "type" := JStr("movie"), "themes" := JArr([JStr("Sci-Fi")])])

  /** The search ignores case on titles and on themes. */
  lemma SearchIsCaseInsensitive()
    ensures SearchHit(Dune, Lower("dune")) == Some(true)
    ensures SearchHit(Dune, Lower("SCI")) == Some(true)
  {
    assert Lower("Dune") == "dune";
    assert Lower("dune") == "dune";
    assert Lower("SCI") == "sci";
    assert Lower("Sci-Fi") == "sci-fi";
    assert "sci" <= "sci-fi";
  }
}
